=== FILE: README.md ===
# Shutdown coordinator of the `daemon` package, modelled in Dafny

The Go package `daemon` runs an application as a service. It watches three
stop conditions: an OS signal, an error pushed onto the fatal-errors channel,
and cancellation of the parent context. An explicit `ShutDown()` call is a
fourth way to stop. Whichever condition fires first starts one graceful
shutdown. The shutdown runs the callbacks registered with `OnShutDown` in
order under a shutdown-scope context, then cancels the daemon's exposed
context and closes `done`, which releases `Wait`. Signals can also escalate:
with a positive `maxSignalCount`, every signal from that count on hands exit
code 2 to `exitFn`.

The model has five modules:

- `Defaults` holds the four tuning constants of `defaults.go`.
- `Config` holds the configuration record and the five `With*` options as
  data. `ApplyAll` runs the options left to right, as `Start` does. It is
  proved equal to a reference definition: each field ends up with the value
  of its last writer.
- `Sequencer` holds the callbacks. Each is the predefined marker `CancelCTX`
  or an opaque application callback. `Run` is the loop of `runWithMutex` as
  a function, and the method `RunWithMutex` is the same loop written
  imperatively. Elapsed time is an oracle. `Opaque(id, overruns)` says
  whether the grace deadline has passed by the time that callback returns.
  The shutdown-scope context is done after a callback exactly when one of
  two things holds: the parent is cancelled, or a deadline is attached
  (timeout > 0) and that callback overran.
- `Lifecycle` holds the `Daemon` state and the operations `Start`,
  `OnShutDown`, `ShutDown` (the `sync.Once` latch), `ShutDownBody` (the
  goroutine body `shutDown`) and `Wait`. It also folds both watcher
  goroutines into one pure `Step(state, event)`. The latch counts the
  goroutines it launches. A launched goroutine gets to run as a separate
  event, `ShutDownRoutine`, which runs the unguarded body once per launch.
  So at-most-once execution rests on the latch alone. Registrations made
  between the trigger and the start of the body are still run.
- `Scenarios` replays the cases of `daemon_test.go` on the model.

Three behaviours of the code are easy to misread, and the model follows the code in each:

- The shutdown context is checked after each callback, not before it. So the
  first callback always runs, even when the parent is already cancelled. The
  callback that overruns still completes, and the sequence stops right after
  it.
- doc.go describes a stack-order `Defer` registration, but no file shown
  here defines it. daemon.go has only append-order `OnShutDown`.
- The shutdown context is derived from the parent, not from the exposed
  context. So `CancelCTX` never cuts the sequence short.

## Model

| member | source | states |
|---|---|---|
| `Config.DefaultConfig` | daemon.go:66-75 | the starting configuration holds the default signal list, threshold 0, buffer size 10, timeout 0 and the discarding logger; its properties are stated by `DefaultNeverEscalates`, `DefaultHasNoDeadline` and `DefaultFatalErrorsCapacity` |
| `Config.ApplyAll` | daemon.go:77-79 | runs the options in order over the configuration; its contract is `LastWriteWins` |
| `Config.Apply` | daemon.go:202-236 | each `With*` option writes its own field with its argument and leaves every other field unchanged |
| `Config.LastWriter` | daemon.go:77-79 | the index of the last option that writes a given field: that option writes it and no later option does; -1 when none does |
| `Config.LastWriteWins` | daemon.go:66-79 | defaults overwritten by options run left to right give every field its last writer's value, or its default when no option writes it |
| `Config.UnwrittenFieldKept` | daemon.go:66-75 | a field that no option writes keeps its default |
| `Sequencer.ShutdownContext` | daemon.go:114-123 | the shutdown context is built from the parent and the timeout alone, with a deadline exactly when the timeout is positive. With the parent cancelled it is done after every callback. With a non-positive timeout it is done after a callback exactly when the parent is cancelled. With a positive timeout every overrunning callback leaves it done. With a live parent the marker never leaves it done |
| `Sequencer.DoneAfter` | daemon.go:243 | after a callback, a cancelled parent always leaves the context done, and so does an overrun while a deadline is attached. Nothing else does: with a live parent and a callback that does not overrun it is not done. After the marker it is done exactly when the parent is, and without a deadline only a cancelled parent makes it done |
| `Sequencer.Run` | daemon.go:241-246 | the call-then-check loop over the registry; its contract is `RunSpec` |
| `Sequencer.RunSpec` | daemon.go:238-247 | the executed callbacks are a prefix of the registry, in order. The first always runs. No callback before the last one left the context done. If callbacks were skipped, the last one run left it done. A callback sees the exposed context live exactly when it was live at the start and no marker ran before it |
| `Sequencer.RunStep` | daemon.go:241-245 | one loop iteration: the head runs, then the rest runs only if the context is not done |
| `Sequencer.RunWithMutex` | daemon.go:238-247 | the imperative loop computes the same trace as `Run` |
| `Sequencer.NoDeadlineRunsAll` | daemon.go:117-123 | with no deadline attached and a live parent, every registered callback runs |
| `Sequencer.ParentDoneRunsFirstOnly` | daemon.go:241-245 | with the parent cancelled, exactly the first callback runs, because the check follows the call |
| `Sequencer.MarkerNeverStops` | daemon.go:114 | the shutdown context is built from the parent, not from the exposed context that `CancelCTX` cancels, so the marker never ends the sequence while the parent is live |
| `Sequencer.OverrunIsLast` | daemon.go:241-245 | the callback that overruns the deadline runs to completion and is the last one run; callbacks before it ran |
| `Sequencer.MarkerLaw` | daemon_test.go:105-128 | with `[before, CancelCTX, after]` every callback runs; those up to and including the marker see the exposed context live, and all later ones see it cancelled |
| `Lifecycle.Start` | daemon.go:65-101 | the configuration is the assembled one. `Start` panics in the source's order: a negative signal threshold first (`make(chan, n)`), then a nil parent (`context.WithCancel`), then a negative fatal-errors buffer; with a non-negative threshold, a non-nil parent and a non-negative buffer it succeeds. The fatal-errors capacity then equals the configured size. The daemon starts with no callbacks, no trigger fired and no goroutine launched. Its exposed context is done at once exactly when the parent is already cancelled |
| `Lifecycle.OnShutDown` | daemon.go:105-109 | the registry becomes the old registry followed by the new callbacks, and nothing else changes |
| `Lifecycle.ShutDown` | daemon.go:134-138 | the first call fires the once-latch and launches one shutdown goroutine; later calls launch none. It changes nothing else and runs no callback itself |
| `Lifecycle.ShutDownIdempotent` | daemon.go:134-138 | calling `ShutDown` again after it has fired leaves the daemon as it was |
| `Lifecycle.ShutDownBody` | daemon.go:111-131 | the trace is exactly `Run` of the registry under the parent-derived context, starting with the exposed context live exactly when the parent is live. It then cancels the exposed context and sets `done`, whether the loop ended normally or early. It has no guard of its own and changes nothing but the trace, the cancellation, `done` and the run count |
| `Lifecycle.HandleSignal` | daemon.go:154-161 | counts the signal. It hands code 2 to `exitFn` exactly when the threshold is positive and the count has reached it, then always fires the latch |
| `Lifecycle.Step` | daemon.go:147-193 | every event keeps the invariant. The configuration never changes and the registry only grows. Triggers fire the latch and run no callbacks. After `done` the trace is fixed. The body cannot run before a trigger |
| `Lifecycle.Replay` | daemon.go:147-193 | over any event sequence the invariant holds, in particular at most one run of the shutdown body. The configuration is unchanged, and a completed shutdown's trace is never altered |
| `Lifecycle.Wait` | daemon.go:195-197 | `Wait` returns exactly when the body has run, and by then the exposed context is cancelled |
| `Lifecycle.AtMostOnce` | daemon.go:134-138 | from a fresh daemon, any mix of any number of signals, fatal errors, parent cancellations and `ShutDown` calls launches at most one shutdown goroutine, so the body runs at most once |
| `Lifecycle.ExitCodes` | daemon.go:157-159 | every code handed to `exitFn` is 2, and there is one per signal at or past a positive threshold |
| `Lifecycle.TriggerCompletes` | daemon.go:161-185 | any single trigger, once the launched goroutine runs, completes the shutdown and releases `Wait` |
| `Lifecycle.NoTriggerNoRun` | daemon.go:134-138 | without a trigger no callback runs and `done` stays open, whatever registrations happen |
| `Lifecycle.AppendOrder` | daemon.go:105-109 | registering `a` and then `b` is the same as registering `a + b` |
| `Lifecycle.NoTimeoutRunsEverything` | daemon.go:117-123 | with a non-positive timeout and a live parent, the body runs every registered callback |
| `Lifecycle.ParentCancelledRunsFirst` | daemon.go:84-114 | when the parent is cancelled, the body runs only the first callback, and that callback already sees the exposed context, a child of the parent, cancelled |
| `Lifecycle.DefaultNeverEscalates` | defaults.go:11 | with the default threshold 0, no sequence of events ever calls `exitFn` |
| `Lifecycle.DefaultHasNoDeadline` | defaults.go:13 | the default timeout 0 attaches no deadline to the shutdown context |
| `Lifecycle.DefaultFatalErrorsCapacity` | defaults.go:12 | by default the fatal-errors channel holds 10 errors |
| `Scenarios.TestSignalReceived` | daemon_test.go:21-30 | one interrupt with defaults completes the shutdown without calling `exitFn` |
| `Scenarios.TestSignalReceivedExitFn` | daemon_test.go:32-54 | with threshold 2, two signals hand exactly one code, 2, to `exitFn` |
| `Scenarios.TestFatalErrorReceived` | daemon_test.go:56-65 | a fatal error with defaults completes the shutdown without calling `exitFn` |
| `Scenarios.TestParentContextCancelled` | daemon_test.go:67-76 | cancelling the parent completes the shutdown |
| `Scenarios.TestShutdownTimeout` | daemon_test.go:78-103 | with a 10ms grace period and an overrunning first callback, only `shutdown_1` runs |
| `Scenarios.TestContextCancel` | daemon_test.go:105-128 | `shutdown_before` sees the exposed context live and `shutdown_after` sees it cancelled |
| `Scenarios.TestConfigs` | daemon_test.go:152-163 | the signal option and the buffer-size option reach the configuration and the channel capacity |

## Left out

- Lifecycle.Start: `make(chan, n)` also panics when `n` exceeds the runtime's allocation limit. Only negative sizes are modelled as panics, because that limit depends on the platform and the element size. The `signal.Notify` subscription that a later panic leaves behind is not modelled either, because signal delivery is outside the model.

- Goroutines, `select`, channels, `sync.Mutex` and `sync.Once` are not modelled as concurrency primitives. They become one event sequence applied atomically, plus a latch flag.
- Lifecycle.ShutDownBody: the body runs atomically. A signal or a fatal error that arrives while a callback is running cannot be modelled. `Scenarios.TestSignalReceivedExitFn` therefore delivers both signals before the body runs.
- Lifecycle.Step: an event that arrives after `done` is dropped, because the watcher has returned. The race in which `select` picks a pending signal over a closed `done` is not modelled.
- Lifecycle.Step: the parent can be cancelled only between events. Cancellation while a callback runs is folded into that callback's `overruns` flag when a deadline is set, and is otherwise not modelled.
- Sequencer.DoneAfter: the marker is assumed to take no time, so it never overruns the deadline itself.
- Registration that races with a running sequence is not modelled. The Go code reads the `onShutDown` slice before it takes the mutex.
- `signal.Notify` subscription and OS delivery into the signal channel are not modelled. Nor is the buffer of that channel, which `maxSignalCount` sizes and which is unbuffered by default. These are platform calls.
- `os.Exit` and the wrappers in std.go are not modelled. `exitFn` calls are recorded in `exits` and execution continues, as it does with the injectable `exitFn` the tests use.
- Logging through `slog`, `logSignal`, `logFatalError` and the log helpers in defaults.go is left out. With a non-nil logger it only has side effects.
- Lifecycle.TriggerCompletes: a nil `*slog.Logger` passed to `WithLogger` is not modelled, and `Logger` has no nil case. In Go the first log call on a nil logger panics: in the shutdown goroutine at daemon.go:112 before any callback runs, in the parent watcher at daemon.go:184, and through `logSignal`/`logFatalError` at daemon.go:156 and 165. So with a nil logger every trigger crashes the process and `Wait` never returns, while the model promises completion.
- The `exitFn`, `logSignal` and `logFatalError` configuration fields are left out. No option sets them.
- `time.Duration` and deadline timers are replaced by the `overruns` oracle. Only the sign of the timeout matters, and the timeout is in nanoseconds.
- The `context.WithValue` lookup in `CancelCTX` is replaced by a constructor. Called outside a shutdown sequence, where the context carries no daemon, `CancelCTX` is a no-op. Callbacks run only inside the sequence, where the key is always present, so that case does not arise.
- Stack-order registration (`Defer`) is not modelled. It is referenced in doc.go and in an example but defined in no shown source file.
- The default signal list of defaults_linux.go is kept as four signal numbers. Their meaning is not modelled.
- The signal counter is unbounded. Go's `int` cannot overflow in practice here.
- The accessors `CTX` and `FatalErrorsChannel` are represented by `ExposedDone` and `fatalErrorsChannelCap`.
- The example HTTP programs and tools/tools.go are not modelled.

=== FILE: config.dfy ===
/**
 * The coordinator's configuration record and the option values that
 * overwrite it (daemon.go: `config`, `Start`'s assembly loop, `With*`).
 */
module Config {
  import opened Defaults

  /** An operating-system signal, identified by its number. */
  datatype Signal = Signal(code: int)

  /** A non-nil `*slog.Logger`: the discarding default or another one. The coordinator only passes it around. */
  datatype Logger = DiscardLogger | Logger(id: nat)

  /** SIGINT, SIGQUIT, SIGABRT and SIGTERM, as watched on Linux by default. */
  const DefaultSignals: seq<Signal> := [Signal(2), Signal(3), Signal(6), Signal(15)]

  /** Durations are nanoseconds (Go's time.Duration); counts are Go ints and may be negative. */
  datatype Config = Config(
    signalsNotify: seq<Signal>,
    maxSignalCount: int,
    fatalErrorsChannelBufferSize: int,
    shutdownTimeout: int,
    logger: Logger)

  function DefaultConfig(): (c: Config) {
    Config(DefaultSignals, DefaultMaxSignalCount, DefaultFatalErrorsChannelBufferSize,
           DefaultShutdownTimeout, DiscardLogger)
  }

  /** The option constructors, one per `With*` function. */
  datatype DaemonConfigOption =
    | WithSignalsNotify(signals: seq<Signal>)
    | WithMaxSignalCount(count: int)
    | WithFatalErrorsChannelBufferSize(size: int)
    | WithShutdownGraceDuration(duration: int)
    | WithLogger(logger: Logger)

  /** Names of the configuration fields an option can write. */
  datatype Field = SignalsNotify | MaxSignalCount | FatalErrorsChannelBufferSize | ShutdownTimeout | LoggerField

  /** A field's value, whatever its type. */
  datatype FieldValue = SignalsValue(signals: seq<Signal>) | IntValue(n: int) | LoggerValue(logger: Logger)

  function Get(c: Config, f: Field): (v: FieldValue) {
    match f
    case SignalsNotify => SignalsValue(c.signalsNotify)
    case MaxSignalCount => IntValue(c.maxSignalCount)
    case FatalErrorsChannelBufferSize => IntValue(c.fatalErrorsChannelBufferSize)
    case ShutdownTimeout => IntValue(c.shutdownTimeout)
    case LoggerField => LoggerValue(c.logger)
  }

  /** The one field an option writes. */
  function FieldOf(o: DaemonConfigOption): (f: Field) {
    match o
    case WithSignalsNotify(_) => SignalsNotify
    case WithMaxSignalCount(_) => MaxSignalCount
    case WithFatalErrorsChannelBufferSize(_) => FatalErrorsChannelBufferSize
    case WithShutdownGraceDuration(_) => ShutdownTimeout
    case WithLogger(_) => LoggerField
  }

  /** The value an option writes into its field. */
  function Payload(o: DaemonConfigOption): (v: FieldValue) {
    match o
    case WithSignalsNotify(s) => SignalsValue(s)
    case WithMaxSignalCount(n) => IntValue(n)
    case WithFatalErrorsChannelBufferSize(n) => IntValue(n)
    case WithShutdownGraceDuration(d) => IntValue(d)
    case WithLogger(l) => LoggerValue(l)
  }

  /** Running one option: its field takes the option's value, every other field is kept. */
  function Apply(c: Config, o: DaemonConfigOption): (r: Config)
    ensures forall f :: Get(r, f) == if f == FieldOf(o) then Payload(o) else Get(c, f)
  {
    match o
    case WithSignalsNotify(s) => c.(signalsNotify := s)
    case WithMaxSignalCount(n) => c.(maxSignalCount := n)
    case WithFatalErrorsChannelBufferSize(n) => c.(fatalErrorsChannelBufferSize := n)
    case WithShutdownGraceDuration(d) => c.(shutdownTimeout := d)
    case WithLogger(l) => c.(logger := l)
  }

  /** Options run left to right over `c`, as `Start`'s loop does. */
  function ApplyAll(c: Config, opts: seq<DaemonConfigOption>): (r: Config)
    decreases |opts|
  {
    if |opts| == 0 then c
    else Apply(ApplyAll(c, opts[..|opts| - 1]), opts[|opts| - 1])
  }

  /** Position of the last option in `opts` that writes field `f`, or -1 if none does. */
  function LastWriter(opts: seq<DaemonConfigOption>, f: Field): (k: int)
    ensures -1 <= k < |opts|
    ensures 0 <= k ==> FieldOf(opts[k]) == f
    ensures forall j :: k < j < |opts| ==> FieldOf(opts[j]) != f
    decreases |opts|
  {
    if |opts| == 0 then -1
    else if FieldOf(opts[|opts| - 1]) == f then |opts| - 1
    else LastWriter(opts[..|opts| - 1], f)
  }

  /** Reference definition: a field ends up with its last writer's value, or keeps its initial value. */
  function Effective(c: Config, opts: seq<DaemonConfigOption>, f: Field): (v: FieldValue) {
    var k := LastWriter(opts, f);
    if k < 0 then Get(c, f) else Payload(opts[k])
  }

  /** Applying the options in order is the same as taking, per field, the last write. */
  lemma {:induction false} LastWriteWins(c: Config, opts: seq<DaemonConfigOption>, f: Field)
    ensures Get(ApplyAll(c, opts), f) == Effective(c, opts, f)
    decreases |opts|
  {
    if |opts| > 0 {
      var init := opts[..|opts| - 1];
      LastWriteWins(c, init, f);
      if FieldOf(opts[|opts| - 1]) != f {
        assert LastWriter(opts, f) == LastWriter(init, f);
        var k := LastWriter(init, f);
        if 0 <= k {
          assert opts[k] == init[k];
        }
      }
    }
  }

  /** An option list that never writes `f` leaves it at its initial value. */
  lemma UnwrittenFieldKept(c: Config, opts: seq<DaemonConfigOption>, f: Field)
    requires forall j :: 0 <= j < |opts| ==> FieldOf(opts[j]) != f
    ensures Get(ApplyAll(c, opts), f) == Get(c, f)
  {
    LastWriteWins(c, opts, f);
  }
}

=== FILE: defaults.dfy ===
/** Default tuning constants of the coordinator (defaults.go). */
module Defaults {

  /** Signal-count escalation threshold; 0 disables escalation. */
  const DefaultMaxSignalCount: int := 0

  /** Capacity of the fatal-errors channel. */
  const DefaultFatalErrorsChannelBufferSize: int := 10

  /** Shutdown grace duration in nanoseconds; 0 means no deadline. */
  const DefaultShutdownTimeout: int := 0

  /** The exit code handed to the termination function on escalation. */
  const ImmediateTerminationExitCode: int := 2
}

=== FILE: lifecycle.dfy ===
/**
 * The daemon's lifecycle (daemon.go: `Daemon`, `Start`, `OnShutDown`,
 * `ShutDown`, `shutDown`, the two watcher goroutines of `start`, `Wait`).
 * The goroutines and channels are flattened into one state machine: every
 * event is one thing a watcher or a caller does, applied atomically, and the
 * goroutine that `ShutDown` launches is the event `ShutDownRoutine`.
 */
module Lifecycle {
  import opened Defaults
  import opened Config
  import opened Sequencer

  datatype Daemon = Daemon(
    config: Config,
    signalChannelCap: int,        // capacity of the signal channel
    fatalErrorsChannelCap: int,   // capacity of the fatal-errors channel
    parentCancelled: bool,        // the parent context has been cancelled
    ctxCancelled: bool,           // the exposed context's cancel function has been called
    registry: seq<Callback>,      // the `onShutDown` slice
    sigReceived: nat,             // signals taken by the primary watcher
    exits: seq<int>,              // codes handed to `exitFn`, in order
    latched: bool,                // `shutDownOnce` has fired
    launched: nat,                // shutdown goroutines launched by the latch
    runs: nat,                    // times the shutdown body has executed
    executed: seq<Executed>,      // what the shutdown body ran
    done: bool)                   // the `done` channel is closed

  /** The exposed context is a child of the parent: cancelled with it or by its own cancel function. */
  predicate ExposedDone(d: Daemon) {
    d.parentCancelled || d.ctxCancelled
  }

  /** Escalation fires on the `count`-th signal when a positive threshold has been reached. */
  predicate Escalates(cfg: Config, count: int) {
    cfg.maxSignalCount > 0 && count >= cfg.maxSignalCount
  }

  /** How many of the signals 1..n escalate under threshold `max`. */
  function EscalationCount(max: int, n: nat): (count: nat) {
    if max > 0 && n >= max then n - max + 1 else 0
  }

  /** The invariant every reachable daemon keeps. */
  predicate Valid(d: Daemon) {
    && d.runs <= d.launched <= 1
    && (d.latched <==> d.launched == 1)
    && (d.done <==> d.runs == 1)
    && (d.done ==> d.ctxCancelled)
    && (!d.done ==> !d.ctxCancelled && d.executed == [])
    && PrefixOf(d.executed, d.registry)
    && (forall i :: 0 <= i < |d.exits| ==> d.exits[i] == ImmediateTerminationExitCode)
    && |d.exits| == EscalationCount(d.config.maxSignalCount, d.sigReceived)
    && d.signalChannelCap == d.config.maxSignalCount
    && d.fatalErrorsChannelCap == d.config.fatalErrorsChannelBufferSize
  }

  /** A daemon as `Start` leaves it: nothing registered, nothing triggered, exposed context not cancelled by the daemon. */
  predicate Initial(d: Daemon) {
    && d.registry == [] && d.sigReceived == 0 && d.exits == []
    && !d.latched && d.launched == 0 && d.runs == 0 && d.executed == [] && !d.done
    && !d.ctxCancelled
  }

  /** The `parentCTX` handed to `Start`: nil, or a context that may already be cancelled. */
  datatype ParentContext = NilParent | ParentContext(cancelled: bool)

  /**
   * Why `Start` panics: `make(chan T, n)` rejects a negative `n`, and
   * `context.WithCancel` rejects a nil parent.
   */
  datatype StartPanic = SignalChannelSizeOutOfRange | NilParentContext | FatalErrorsChannelSizeOutOfRange

  datatype StartResult = Started(daemon: Daemon) | Panicked(reason: StartPanic)

  /**
   * Assembles the configuration (defaults, then options left to right), then
   * in this order creates the signal channel sized by the escalation
   * threshold, derives the exposed context from the parent, and creates the
   * fatal-errors channel; the first of these to fail panics. The parent may
   * already be cancelled, in which case the exposed context, its child, is
   * done at once.
   */
  function Start(parent: ParentContext, opts: seq<DaemonConfigOption>): (r: StartResult)
    ensures var cnf := ApplyAll(DefaultConfig(), opts);
      && (r.Started? <==>
            cnf.maxSignalCount >= 0 && parent.ParentContext? && cnf.fatalErrorsChannelBufferSize >= 0)
      && (cnf.maxSignalCount < 0 ==> r == Panicked(SignalChannelSizeOutOfRange))
      && (cnf.maxSignalCount >= 0 && parent.NilParent? ==> r == Panicked(NilParentContext))
      && (cnf.maxSignalCount >= 0 && parent.ParentContext? && cnf.fatalErrorsChannelBufferSize < 0 ==>
            r == Panicked(FatalErrorsChannelSizeOutOfRange))
      && (r.Started? ==>
            && r.daemon.config == cnf
            && r.daemon.fatalErrorsChannelCap == cnf.fatalErrorsChannelBufferSize
            && r.daemon.parentCancelled == parent.cancelled
            && (ExposedDone(r.daemon) <==> parent.cancelled)
            && Valid(r.daemon) && Initial(r.daemon))
  {
    var cnf := ApplyAll(DefaultConfig(), opts);
    if cnf.maxSignalCount < 0 then Panicked(SignalChannelSizeOutOfRange)
    else if parent.NilParent? then Panicked(NilParentContext)
    else if cnf.fatalErrorsChannelBufferSize < 0 then Panicked(FatalErrorsChannelSizeOutOfRange)
    else Started(Daemon(cnf, cnf.maxSignalCount, cnf.fatalErrorsChannelBufferSize,
                        parent.cancelled, false, [], 0, [], false, 0, 0, [], false))
  }

  /** Appends the callbacks to the registry, keeping their order; nothing else changes. */
  function OnShutDown(d: Daemon, fns: seq<Callback>): (r: Daemon)
    ensures r.registry == d.registry + fns
    ensures r.(registry := d.registry) == d
  {
    d.(registry := d.registry + fns)
  }

  /**
   * `shutDownOnce.Do`: the first call fires the latch and launches the
   * shutdown goroutine; later calls are no-ops. No call runs a callback itself.
   */
  function ShutDown(d: Daemon): (r: Daemon)
    ensures r.latched
    ensures r.launched == if d.latched then d.launched else d.launched + 1
    ensures r.(latched := d.latched, launched := d.launched) == d
  {
    if d.latched then d else d.(latched := true, launched := d.launched + 1)
  }

  /** A second `ShutDown` changes nothing: the latch fires once. */
  lemma ShutDownIdempotent(d: Daemon)
    ensures ShutDown(ShutDown(d)) == ShutDown(d)
  {
  }

  /**
   * The shutdown body, run by a launched goroutine: runs the registry under
   * the shutdown-scope context (built from the parent, with a deadline only
   * for a positive timeout), then cancels the exposed context and closes
   * `done`. It has no guard of its own.
   */
  function ShutDownBody(d: Daemon): (r: Daemon)
    requires Valid(d) && d.launched > d.runs
    ensures Valid(r)
    ensures r.done && ExposedDone(r) && r.runs == d.runs + 1
    ensures r.executed == Run(d.registry, ShutdownContext(d.config, d.parentCancelled), !d.parentCancelled)
    ensures PrefixOf(r.executed, d.registry) && (|d.registry| > 0 ==> |r.executed| > 0)
    ensures r.(executed := d.executed, ctxCancelled := d.ctxCancelled, done := d.done, runs := d.runs) == d
  {
    var s := ShutdownContext(d.config, d.parentCancelled);
    RunSpec(d.registry, s, !ExposedDone(d));
    d.(executed := Run(d.registry, s, !ExposedDone(d)), ctxCancelled := true, done := true, runs := d.runs + 1)
  }

  /**
   * A signal taken by the primary watcher: count it, hand the fixed exit code
   * to `exitFn` once the threshold is reached, then trigger the shutdown.
   */
  function HandleSignal(d: Daemon): (r: Daemon)
    requires Valid(d) && !d.done
    ensures Valid(r)
    ensures r.sigReceived == d.sigReceived + 1 && r.latched
    ensures Escalates(d.config, r.sigReceived) ==> r.exits == d.exits + [ImmediateTerminationExitCode]
    ensures !Escalates(d.config, r.sigReceived) ==> r.exits == d.exits
    ensures r.(sigReceived := d.sigReceived, exits := d.exits, latched := d.latched, launched := d.launched) == d
  {
    var n := d.sigReceived + 1;
    var counted := d.(sigReceived := n);
    var exited := if Escalates(d.config, n) then counted.(exits := counted.exits + [ImmediateTerminationExitCode]) else counted;
    ShutDown(exited)
  }

  datatype Event =
    | Register(fns: seq<Callback>)          // a caller's `OnShutDown`
    | SignalReceived(sig: Signal)           // stop condition (a); the signal only feeds logging
    | FatalErrorReceived(err: string)       // stop condition (b); the error only feeds logging
    | ParentCancelled                       // stop condition (c)
    | ShutDownCall                          // a caller's `ShutDown`
    | ShutDownRoutine                       // the goroutine `ShutDown` launched gets to run

  /** The four ways to ask for shutdown. */
  predicate IsTrigger(e: Event) {
    e.SignalReceived? || e.FatalErrorReceived? || e.ParentCancelled? || e.ShutDownCall?
  }

  /**
   * One event. Once `done` is closed both watchers have returned, so a later
   * signal or fatal error is not taken; the parent can still be cancelled.
   */
  function Step(d: Daemon, e: Event): (r: Daemon)
    requires Valid(d)
    ensures Valid(r)
    ensures r.config == d.config
    ensures d.registry <= r.registry
    ensures d.done ==> r.done && r.executed == d.executed
    ensures IsTrigger(e) ==> r.runs == d.runs && r.executed == d.executed && (d.done || r.latched)
    ensures !d.latched && !IsTrigger(e) ==> !r.latched && !r.done
  {
    match e
    case Register(fns) => OnShutDown(d, fns)
    case SignalReceived(_) => if d.done then d else HandleSignal(d)
    case FatalErrorReceived(_) => if d.done then d else ShutDown(d)
    case ParentCancelled =>
      var cancelled := d.(parentCancelled := true);
      if d.done then cancelled else ShutDown(cancelled)
    case ShutDownCall => ShutDown(d)
    case ShutDownRoutine => if d.launched > d.runs then ShutDownBody(d) else d
  }

  /** A run of events, in order. */
  function Replay(d: Daemon, evs: seq<Event>): (r: Daemon)
    requires Valid(d)
    ensures Valid(r)
    ensures r.config == d.config
    ensures d.registry <= r.registry
    ensures d.done ==> r.done && r.executed == d.executed
    decreases |evs|
  {
    if |evs| == 0 then d else Replay(Step(d, evs[0]), evs[1..])
  }

  /** `Wait` returns once `done` is closed; by then the body ran once and the exposed context is cancelled. */
  function Wait(d: Daemon): (returned: bool)
    requires Valid(d)
    ensures returned <==> d.runs == 1
    ensures returned ==> ExposedDone(d)
  {
    d.done
  }

  /** However many triggers of whatever kind arrive, the shutdown body runs at most once. */
  lemma AtMostOnce(d: Daemon, evs: seq<Event>)
    requires Valid(d) && Initial(d)
    ensures Replay(d, evs).runs <= Replay(d, evs).launched <= 1
  {
  }

  /** Every code handed to `exitFn` is 2, and there is one per signal at or past the threshold. */
  lemma ExitCodes(d: Daemon, evs: seq<Event>)
    requires Valid(d) && Initial(d)
    ensures var r := Replay(d, evs);
      && (forall i :: 0 <= i < |r.exits| ==> r.exits[i] == ImmediateTerminationExitCode)
      && |r.exits| == EscalationCount(d.config.maxSignalCount, r.sigReceived)
  {
  }

  /** Any single trigger, once its goroutine runs, completes the shutdown and releases `Wait`. */
  lemma TriggerCompletes(d: Daemon, t: Event)
    requires Valid(d) && IsTrigger(t)
    ensures Wait(Replay(d, [t, ShutDownRoutine]))
  {
    var d1 := Step(d, t);
    assert [t, ShutDownRoutine][1..] == [ShutDownRoutine];
    assert Replay(d, [t, ShutDownRoutine]) == Replay(d1, [ShutDownRoutine]);
    assert Replay(d1, [ShutDownRoutine]) == Step(d1, ShutDownRoutine);
  }

  /** Before any trigger, the goroutine event does nothing: no trigger, no callbacks. */
  lemma {:induction false} NoTriggerNoRun(d: Daemon, evs: seq<Event>)
    requires Valid(d) && !d.latched
    requires forall i :: 0 <= i < |evs| ==> !IsTrigger(evs[i])
    ensures !Replay(d, evs).done && Replay(d, evs).executed == []
    decreases |evs|
  {
    if |evs| > 0 {
      NoTriggerNoRun(Step(d, evs[0]), evs[1..]);
    }
  }

  /** Registering `a` then `b` is registering `a + b`: order within and across calls is kept. */
  lemma AppendOrder(d: Daemon, a: seq<Callback>, b: seq<Callback>)
    ensures OnShutDown(OnShutDown(d, a), b) == OnShutDown(d, a + b)
  {
    assert d.registry + a + b == d.registry + (a + b);
  }

  /** Without a deadline and with a live parent, the body runs every registered callback. */
  lemma NoTimeoutRunsEverything(d: Daemon)
    requires Valid(d) && d.latched && !d.done
    requires d.config.shutdownTimeout <= 0 && !d.parentCancelled
    ensures |Step(d, ShutDownRoutine).executed| == |d.registry|
  {
    NoDeadlineRunsAll(d.registry, ShutdownContext(d.config, d.parentCancelled), !ExposedDone(d));
  }

  /** Shutdown triggered with the parent cancelled runs only the first callback, with the exposed context already cancelled. */
  lemma ParentCancelledRunsFirst(d: Daemon)
    requires Valid(d) && d.latched && !d.done && d.parentCancelled
    ensures var r := Step(d, ShutDownRoutine);
      |d.registry| > 0 ==> r.executed == [Executed(d.registry[0], false)]
  {
  }

  /** With the default threshold 0, no number of signals ever reaches `exitFn`. */
  lemma DefaultNeverEscalates(parentCancelled: bool, evs: seq<Event>)
    ensures Start(ParentContext(parentCancelled), []).Started?
    ensures Replay(Start(ParentContext(parentCancelled), []).daemon, evs).exits == []
  {
    assert ApplyAll(DefaultConfig(), []) == DefaultConfig();
  }

  /** The default configuration attaches no deadline to the shutdown context. */
  lemma DefaultHasNoDeadline(parentCancelled: bool)
    ensures !ShutdownContext(DefaultConfig(), parentCancelled).hasDeadline
  {
  }

  /** By default the fatal-errors channel holds 10 errors. */
  lemma DefaultFatalErrorsCapacity(parentCancelled: bool)
    ensures Start(ParentContext(parentCancelled), []).Started? && Start(ParentContext(parentCancelled), []).daemon.fatalErrorsChannelCap == 10
  {
    assert ApplyAll(DefaultConfig(), []) == DefaultConfig();
  }
}

=== FILE: scenarios.dfy ===
/** The scenarios of daemon_test.go, replayed on the model. */
module Scenarios {
  import opened Config
  import opened Sequencer
  import opened Lifecycle

  /** A logger other than the default discarding one, as the tests install. */
  const TestLogger: Logger := Logger(1)

  lemma ApplyOne(c: Config, a: DaemonConfigOption)
    ensures ApplyAll(c, [a]) == Apply(c, a)
  {
    assert [a][..0] == [];
  }

  lemma ApplyTwo(c: Config, a: DaemonConfigOption, b: DaemonConfigOption)
    ensures ApplyAll(c, [a, b]) == Apply(Apply(c, a), b)
  {
    assert [a, b][..1] == [a];
    ApplyOne(c, a);
  }

  lemma ApplyThree(c: Config, a: DaemonConfigOption, b: DaemonConfigOption, x: DaemonConfigOption)
    ensures ApplyAll(c, [a, b, x]) == Apply(Apply(Apply(c, a), b), x)
  {
    assert [a, b, x][..2] == [a, b];
    ApplyTwo(c, a, b);
  }

  /** One interrupt with the default configuration shuts down gracefully without calling `exitFn`. */
  lemma TestSignalReceived()
    ensures Start(ParentContext(false), [WithLogger(TestLogger)]).Started?
    ensures var r := Replay(Start(ParentContext(false), [WithLogger(TestLogger)]).daemon, [SignalReceived(Signal(2)), ShutDownRoutine]);
            Wait(r) && r.exits == []
  {
    ApplyOne(DefaultConfig(), WithLogger(TestLogger));
    var d := Start(ParentContext(false), [WithLogger(TestLogger)]).daemon;
    var d1 := Step(d, SignalReceived(Signal(2)));
    assert d1.latched && d1.exits == [];
    assert Replay(d, [SignalReceived(Signal(2)), ShutDownRoutine]) == Step(d1, ShutDownRoutine);
  }

  /** With a threshold of 2, two signals call `exitFn` exactly once, with code 2, and `Wait` still returns. */
  lemma TestSignalReceivedExitFn()
    ensures Start(ParentContext(false), [WithMaxSignalCount(2), WithShutdownGraceDuration(0), WithLogger(TestLogger)]).Started?
    ensures var d := Start(ParentContext(false), [WithMaxSignalCount(2), WithShutdownGraceDuration(0), WithLogger(TestLogger)]).daemon;
            var r := Replay(d, [Register([Opaque(1, false)]), SignalReceived(Signal(2)), SignalReceived(Signal(2)),
                                ShutDownRoutine]);
            r.exits == [2] && Wait(r)
  {
    var opts := [WithMaxSignalCount(2), WithShutdownGraceDuration(0), WithLogger(TestLogger)];
    ApplyThree(DefaultConfig(), opts[0], opts[1], opts[2]);
    var d := Start(ParentContext(false), opts).daemon;
    assert d.config.maxSignalCount == 2;
    var d1 := Step(d, Register([Opaque(1, false)]));
    var d2 := Step(d1, SignalReceived(Signal(2)));
    assert d2.exits == [];
    var d3 := Step(d2, SignalReceived(Signal(2)));
    assert d3.exits == [2];
    var d4 := Step(d3, ShutDownRoutine);
    var evs := [Register([Opaque(1, false)]), SignalReceived(Signal(2)), SignalReceived(Signal(2)), ShutDownRoutine];
    assert Replay(d, evs) == Replay(d1, evs[1..]);
    assert Replay(d1, evs[1..]) == Replay(d2, evs[2..]);
    assert Replay(d2, evs[2..]) == Replay(d3, evs[3..]);
    assert Replay(d3, evs[3..]) == d4;
  }

  /** A fatal error with the default configuration shuts down gracefully without calling `exitFn`. */
  lemma TestFatalErrorReceived()
    ensures Start(ParentContext(false), [WithLogger(TestLogger)]).Started?
    ensures var r := Replay(Start(ParentContext(false), [WithLogger(TestLogger)]).daemon, [FatalErrorReceived("error"), ShutDownRoutine]);
            Wait(r) && r.exits == []
  {
    ApplyOne(DefaultConfig(), WithLogger(TestLogger));
    TriggerCompletes(Start(ParentContext(false), [WithLogger(TestLogger)]).daemon, FatalErrorReceived("error"));
  }

  /** Cancelling the parent shuts the daemon down. */
  lemma TestParentContextCancelled()
    ensures Start(ParentContext(false), [WithLogger(TestLogger)]).Started?
    ensures Wait(Replay(Start(ParentContext(false), [WithLogger(TestLogger)]).daemon, [ParentCancelled, ShutDownRoutine]))
  {
    ApplyOne(DefaultConfig(), WithLogger(TestLogger));
    TriggerCompletes(Start(ParentContext(false), [WithLogger(TestLogger)]).daemon, ParentCancelled);
  }

  /** A 10ms grace period and a first callback that outlasts it: only that callback runs. */
  lemma TestShutdownTimeout()
    ensures Start(ParentContext(false), [WithShutdownGraceDuration(10_000_000), WithLogger(TestLogger)]).Started?
    ensures var d := Start(ParentContext(false), [WithShutdownGraceDuration(10_000_000), WithLogger(TestLogger)]).daemon;
            var r := Replay(d, [Register([Opaque(1, true)]), Register([Opaque(2, false)]), Register([Opaque(3, false)]),
                                ShutDownCall, ShutDownRoutine]);
            |r.executed| == 1 && r.executed[0].callback == Opaque(1, true) && Wait(r) && r.exits == []
  {
    var opts := [WithShutdownGraceDuration(10_000_000), WithLogger(TestLogger)];
    ApplyTwo(DefaultConfig(), opts[0], opts[1]);
    var d := Start(ParentContext(false), opts).daemon;
    var evs := [Register([Opaque(1, true)]), Register([Opaque(2, false)]), Register([Opaque(3, false)]),
                ShutDownCall, ShutDownRoutine];
    var d1 := Step(d, evs[0]);
    var d2 := Step(d1, evs[1]);
    var d3 := Step(d2, evs[2]);
    var d4 := Step(d3, evs[3]);
    assert d4.registry == [Opaque(1, true), Opaque(2, false), Opaque(3, false)];
    OverrunIsLast(d4.registry, ShutdownContext(d4.config, false), true, 0);
    var d5 := Step(d4, evs[4]);
    assert Replay(d, evs) == Replay(d1, evs[1..]);
    assert Replay(d1, evs[1..]) == Replay(d2, evs[2..]);
    assert Replay(d2, evs[2..]) == Replay(d3, evs[3..]);
    assert Replay(d3, evs[3..]) == Replay(d4, evs[4..]);
    assert Replay(d4, evs[4..]) == d5;
  }

  /** `[before, CancelCTX, after]`: `before` sees the exposed context live, `after` sees it cancelled. */
  lemma TestContextCancel()
    ensures Start(ParentContext(false), [WithLogger(TestLogger)]).Started?
    ensures var d := Start(ParentContext(false), [WithLogger(TestLogger)]).daemon;
            var r := Replay(d, [Register([Opaque(1, false)]), Register([CancelCTX]), Register([Opaque(2, false)]),
                                ShutDownCall, ShutDownRoutine]);
            && r.executed == [Executed(Opaque(1, false), true), Executed(CancelCTX, true), Executed(Opaque(2, false), false)]
            && Wait(r) && r.exits == []
  {
    ApplyOne(DefaultConfig(), WithLogger(TestLogger));
    var d := Start(ParentContext(false), [WithLogger(TestLogger)]).daemon;
    var evs := [Register([Opaque(1, false)]), Register([CancelCTX]), Register([Opaque(2, false)]),
                ShutDownCall, ShutDownRoutine];
    var d1 := Step(d, evs[0]);
    var d2 := Step(d1, evs[1]);
    var d3 := Step(d2, evs[2]);
    var d4 := Step(d3, evs[3]);
    assert d4.registry == [Opaque(1, false)] + [CancelCTX] + [Opaque(2, false)];
    MarkerLaw([Opaque(1, false)], [Opaque(2, false)], ShutdownContext(d4.config, false));
    var d5 := Step(d4, evs[4]);
    assert Replay(d, evs) == Replay(d1, evs[1..]);
    assert Replay(d1, evs[1..]) == Replay(d2, evs[2..]);
    assert Replay(d2, evs[2..]) == Replay(d3, evs[3..]);
    assert Replay(d3, evs[3..]) == Replay(d4, evs[4..]);
    assert Replay(d4, evs[4..]) == d5;
  }

  /** Options reach the configuration and the fatal-errors channel's capacity; a shutdown then completes without `exitFn`. */
  lemma TestConfigs()
    ensures var r := Start(ParentContext(false), [WithSignalsNotify([Signal(2)]), WithFatalErrorsChannelBufferSize(100), WithLogger(TestLogger)]);
            && r.Started? && r.daemon.config.signalsNotify == [Signal(2)] && r.daemon.fatalErrorsChannelCap == 100
            && var f := Replay(r.daemon, [ShutDownCall, ShutDownRoutine]);
               Wait(f) && f.exits == []
  {
    var opts := [WithSignalsNotify([Signal(2)]), WithFatalErrorsChannelBufferSize(100), WithLogger(TestLogger)];
    ApplyThree(DefaultConfig(), opts[0], opts[1], opts[2]);
    var d := Start(ParentContext(false), opts).daemon;
    TriggerCompletes(d, ShutDownCall);
    var d1 := Step(d, ShutDownCall);
    assert [ShutDownCall, ShutDownRoutine][1..] == [ShutDownRoutine];
    assert Replay(d, [ShutDownCall, ShutDownRoutine]) == Step(d1, ShutDownRoutine);
  }
}

=== FILE: sequencer.dfy ===
/**
 * The shutdown sequencer (daemon.go: `CancelCTX`, the context set-up in
 * `shutDown`, and `runWithMutex`). Elapsed time is not modelled: whether the
 * shutdown-scope context is done when a callback returns is decided by the
 * parent's state and by an `overruns` oracle carried by each callback.
 */
module Sequencer {
  import opened Config

  /**
   * A registered callback: the predefined marker that cancels the daemon's
   * exposed context, or application code identified by `id`. `overruns`
   * says that, by the time the callback returns, the grace deadline (if one
   * is attached) has passed.
   */
  datatype Callback = CancelCTX | Opaque(id: nat, overruns: bool)

  /** The shutdown-scope context: derived from the parent, with or without a deadline. */
  datatype ShutdownCtx = ShutdownCtx(parentDone: bool, hasDeadline: bool)

  /** One executed callback, and whether the exposed context was still live when it started. */
  datatype Executed = Executed(callback: Callback, exposedLive: bool)

  /**
   * The context handed to the callbacks: built from the parent alone, with a
   * deadline attached only for a positive timeout. A cancelled parent leaves
   * it done after every callback; without a deadline nothing else does; with
   * one, an overrunning callback does; the marker never does while the parent
   * is live.
   */
  function ShutdownContext(cfg: Config, parentCancelled: bool): (s: ShutdownCtx)
    ensures s.parentDone <==> parentCancelled
    ensures s.hasDeadline <==> cfg.shutdownTimeout > 0
    ensures parentCancelled ==> forall f :: DoneAfter(s, f)
    ensures cfg.shutdownTimeout <= 0 ==> forall f :: DoneAfter(s, f) <==> parentCancelled
    ensures cfg.shutdownTimeout > 0 ==> forall id :: DoneAfter(s, Opaque(id, true))
    ensures !parentCancelled ==> !DoneAfter(s, CancelCTX)
  {
    ShutdownCtx(parentCancelled, cfg.shutdownTimeout > 0)
  }

  /**
   * `ctx.Err() != nil` right after `f(ctx)` returned: a cancelled parent
   * always makes it so, an overrun under a deadline does too, and nothing
   * else does; in particular the marker never does by itself.
   */
  function DoneAfter(s: ShutdownCtx, f: Callback): (done: bool)
    ensures s.parentDone ==> done
    ensures s.hasDeadline && f.Opaque? && f.overruns ==> done
    ensures !s.parentDone && !(f.Opaque? && f.overruns) ==> !done
    ensures done ==> s.parentDone || s.hasDeadline
    ensures f == CancelCTX ==> (done <==> s.parentDone)
    ensures !s.hasDeadline ==> (done <==> s.parentDone)
  {
    s.parentDone || (s.hasDeadline && f.Opaque? && f.overruns)
  }

  /** The executed callbacks are the first |e| registered ones, in registry order. */
  predicate PrefixOf(e: seq<Executed>, fns: seq<Callback>) {
    |e| <= |fns| && forall i :: 0 <= i < |e| ==> e[i].callback == fns[i]
  }

  /** The exposed context is live when callback `i` starts: it was live at the start and no marker ran before `i`. */
  predicate LiveBefore(fns: seq<Callback>, live: bool, i: nat)
    requires i <= |fns|
  {
    live && CancelCTX !in fns[..i]
  }

  /**
   * The callbacks that run, in order, when the sequence starts with the
   * exposed context `live` or already cancelled. Each callback runs, then
   * the context is checked; the first one after which it is done is the
   * last one to run. `RunSpec` states what this computes.
   */
  function Run(fns: seq<Callback>, s: ShutdownCtx, live: bool): (trace: seq<Executed>)
    decreases |fns|
  {
    if |fns| == 0 then []
    else
      var head := Executed(fns[0], live);
      if DoneAfter(s, fns[0]) then [head]
      else [head] + Run(fns[1..], s, live && fns[0] != CancelCTX)
  }

  /**
   * What the sequence executes: a non-empty prefix of the registry (when the
   * registry is non-empty), in order; no callback before the last one left
   * the context done; if some were skipped, the last one run left it done;
   * each callback saw the exposed context live exactly when it started live
   * and no marker had run yet.
   */
  lemma {:induction false} RunSpec(fns: seq<Callback>, s: ShutdownCtx, live: bool)
    ensures var r := Run(fns, s, live);
      && PrefixOf(r, fns)
      && (|fns| > 0 ==> |r| > 0)
      && (forall i :: 0 <= i < |r| - 1 ==> !DoneAfter(s, fns[i]))
      && (0 < |r| < |fns| ==> DoneAfter(s, fns[|r| - 1]))
      && (forall i :: 0 <= i < |r| ==> (r[i].exposedLive <==> LiveBefore(fns, live, i)))
    decreases |fns|
  {
    if |fns| > 0 && !DoneAfter(s, fns[0]) {
      var live' := live && fns[0] != CancelCTX;
      var tail := Run(fns[1..], s, live');
      RunSpec(fns[1..], s, live');
      var r := Run(fns, s, live);
      assert r == [Executed(fns[0], live)] + tail;
      forall i | 1 <= i < |r|
        ensures r[i].exposedLive <==> LiveBefore(fns, live, i)
      {
        assert fns[..i] == [fns[0]] + fns[1..][..i - 1];
      }
    }
  }

  /** One step of `Run` behind an already executed prefix: the head runs, then the rest unless the context is done. */
  lemma RunStep(pre: seq<Executed>, fns: seq<Callback>, s: ShutdownCtx, live: bool)
    requires |fns| > 0
    ensures pre + Run(fns, s, live) ==
      (pre + [Executed(fns[0], live)])
      + (if DoneAfter(s, fns[0]) then [] else Run(fns[1..], s, live && fns[0] != CancelCTX))
  {
    var rest := if DoneAfter(s, fns[0]) then [] else Run(fns[1..], s, live && fns[0] != CancelCTX);
    assert Run(fns, s, live) == [Executed(fns[0], live)] + rest;
    assert pre + ([Executed(fns[0], live)] + rest) == (pre + [Executed(fns[0], live)]) + rest;
  }

  /** The loop of `runWithMutex`, with the mutex left out. */
  method RunWithMutex(fns: seq<Callback>, s: ShutdownCtx, live: bool) returns (r: seq<Executed>)
    ensures r == Run(fns, s, live)
  {
    r := [];
    var exposedLive := live;
    var i := 0;
    while i < |fns|
      invariant 0 <= i <= |fns|
      invariant Run(fns, s, live) == r + Run(fns[i..], s, exposedLive)
    {
      var f := fns[i];
      RunStep(r, fns[i..], s, exposedLive);
      assert fns[i..][1..] == fns[i + 1..];
      r := r + [Executed(f, exposedLive)];
      exposedLive := exposedLive && f != CancelCTX;
      if DoneAfter(s, f) {
        return;
      }
      i := i + 1;
    }
    assert fns[i..] == [];
  }

  /** Without a deadline and with a live parent, every registered callback runs. */
  lemma NoDeadlineRunsAll(fns: seq<Callback>, s: ShutdownCtx, live: bool)
    requires !s.parentDone && !s.hasDeadline
    ensures |Run(fns, s, live)| == |fns|
  {
    RunSpec(fns, s, live);
  }

  /** With the parent already cancelled, only the first callback runs. */
  lemma ParentDoneRunsFirstOnly(fns: seq<Callback>, s: ShutdownCtx, live: bool)
    requires s.parentDone
    ensures |fns| > 0 ==> Run(fns, s, live) == [Executed(fns[0], live)]
    ensures |fns| == 0 ==> Run(fns, s, live) == []
  {
  }

  /** The marker is never the callback that stops the sequence while the parent is live. */
  lemma MarkerNeverStops(s: ShutdownCtx)
    requires !s.parentDone
    ensures !DoneAfter(s, CancelCTX)
  {
  }

  /**
   * The callback that overruns the deadline still runs and is the last one:
   * given that none before it made the context done, exactly k + 1 run.
   */
  lemma OverrunIsLast(fns: seq<Callback>, s: ShutdownCtx, live: bool, k: nat)
    requires k < |fns| && s.hasDeadline
    requires fns[k].Opaque? && fns[k].overruns
    requires forall j :: 0 <= j < k ==> !DoneAfter(s, fns[j])
    ensures |Run(fns, s, live)| == k + 1
  {
    RunSpec(fns, s, live);
    assert DoneAfter(s, fns[k]);
  }

  /**
   * Marker law: with `[before..., CancelCTX, after...]`, no deadline and a
   * live parent, the callbacks before the marker see a live exposed context,
   * the marker itself does too, and every later one sees it cancelled.
   */
  lemma MarkerLaw(before: seq<Callback>, after: seq<Callback>, s: ShutdownCtx)
    requires !s.parentDone && !s.hasDeadline
    requires CancelCTX !in before
    ensures var fns := before + [CancelCTX] + after;
            var r := Run(fns, s, true);
            && |r| == |fns|
            && (forall i :: 0 <= i <= |before| ==> r[i].exposedLive)
            && (forall i :: |before| < i < |r| ==> !r[i].exposedLive)
  {
    var fns := before + [CancelCTX] + after;
    var r := Run(fns, s, true);
    RunSpec(fns, s, true);
    forall i | 0 <= i <= |before|
      ensures r[i].exposedLive
    {
      assert fns[..i] == before[..i];
      assert LiveBefore(fns, true, i);
    }
    forall i | |before| < i < |r|
      ensures !r[i].exposedLive
    {
      assert fns[..i][|before|] == CancelCTX;
      assert !LiveBefore(fns, true, i);
    }
  }
}
